=== FILE: README.md ===
# User directory store, bus and dispatch — a Dafny model

This project models the non-DOM logic of the user-directory browser in
`dist/js/app.js`:

- the user store (`UserManager`): the canonical list `usersStore`, which
  only grows by appending; the working view `tempUsersStore`; and the current
  sort token;
- the four comparators of `Utils` and the sort-token successor table;
- the publish/subscribe bus (`Observer`), where the first subscriber to an
  event name wins;
- the dispatch of clicks and input (`App.clickHandler`, `App.inputHandler`),
  as pure functions from a store and an event descriptor to a new store and
  the publications made;
- the id-deduplicating ingest of `UserRow.init`, the row mounts of
  `UserList.render`, and the mount done by `App.render`.

Users are immutable value records (`UserRecord.User`). Every operation maps
an old `UserManager.Store` to a new one; what the source returns is read off
the new store (`sortUsers` and `searchByName` return the new working view).
Bus handlers are component tags (`UserListView`, `UserBarView`). Publishing
yields the list of (handler, payload) calls it makes. The effect of a call
on the store is `Components.Notify`: a list re-render re-mounts one row per
record, and a row mount may ingest a record.

Modules: `Options`, `Seqs` (filter and subsequence), `Strings` (ordinal `<`,
`indexOf`), `SortModes`, `UserRecord`, `Utils`, `Sorting`, `UserManager`,
`Observer`, `Components`, `App`, `Scenarios` (worked examples on two records).

Facts about the code that shape the model:

- Search is case-sensitive. `"Ann".indexOf("an")` is -1, so "an" finds
  nobody (`Scenarios.SearchScenario`).
- `createUser` pushes two separate `new User` copies, one per list, and
  `sortUsers` sorts the view array in place. Records here are values, so
  "the view is drawn from the canonical list" is stated as multiset
  inclusion (`UserManager.ViewFromUsers`).
- `createUser` has no id guard. Only the `findById` test in `UserRow.init`
  makes ingest idempotent; both are modelled.
- The code keeps an array of handlers per event name. The subscribe guard
  never lets that array grow past one, and `Observer.OneHandlerEach` is that
  invariant.

Two behaviours of the code that the model makes visible:

- The store starts with current filter `'alphabet'`, but the initial view is
  in fetch order, not sorted (`App.MountOrder`, `App.MountUniqueData`).
- The alphabet toggle starts with token `'alphabet'`. Its first click
  therefore sorts in reverse alphabetical order (`Scenarios.FirstAlphabetClick`).
  Likewise, the age toggle starts with `'age-grow'`, so its first click sorts
  oldest first (`Scenarios.FirstAgeClick`).

## Model

| member | source | states |
|---|---|---|
| `Strings.LessTrichotomy` | dist/js/app.js:31-32 | the string `<` / `>` used by the alphabetical comparators is total and asymmetric: exactly one of `a < b`, `a == b`, `b < a` |
| `Strings.LessTransitive` | dist/js/app.js:31-32 | the string order is transitive |
| `Strings.LessIrreflexive` | dist/js/app.js:31-32 | no name is less than itself |
| `Strings.IndexOf` | dist/js/app.js:106 | `indexOf` gives -1 exactly when the phrase occurs nowhere; otherwise it gives the first position, counted in characters, where the phrase occurs |
| `Strings.ContainsIff` | dist/js/app.js:106 | `indexOf(p) !== -1` holds exactly when `p` is a substring |
| `Strings.ContainsEmpty` | dist/js/app.js:106 | the empty phrase is contained in every name |
| `SortModes.Next` | dist/js/app.js:69-79 | `getNextFilterState` keeps the key (name or age) and flips the direction |
| `SortModes.NextInvolution` | dist/js/app.js:69-79 | toggling twice is the identity, and a toggle never maps a token to itself |
| `SortModes.ParseToken` | dist/js/app.js:63-74 | the four string tokens read back to the mode they name |
| `SortModes.TokenParse` | dist/js/app.js:63-74 | every string that reads back as a mode is that mode's token |
| `Utils.DescendingNegates` | dist/js/app.js:21-43 | `nonAlhabeticalSort` and `ageFallSort` return exactly the negation of `alhabeticalSort` and `ageGrowSort` |
| `Utils.InOrderMeaning` | dist/js/app.js:21-43 | for each comparator, "may precede" means: age non-decreasing, age non-increasing, name equal-or-less, name equal-or-greater |
| `Utils.InOrderTotal` | dist/js/app.js:21-43 | every comparator lets one of any two records go first |
| `Utils.InOrderTransitive` | dist/js/app.js:21-43 | every comparator's order is transitive |
| `Utils.SortedPairwise` | dist/js/app.js:21-43 | in a list sorted by a comparator, every earlier record is in order with every later one |
| `Utils.SortedMeaning` | dist/js/app.js:85-90 | after sorting under each token, ages or names are monotone along the whole list, in the token's direction |
| `Sorting.Insert` | dist/js/app.js:88 | inserting into a sorted list keeps it sorted and adds exactly the one record |
| `Sorting.Sort` | dist/js/app.js:88 | the sort returns a permutation of its input, sorted under the mode's comparator |
| `Sorting.SortKeepsSorted` | dist/js/app.js:88 | a list already sorted under the mode comes back unchanged |
| `Sorting.SortIdempotent` | dist/js/app.js:88 | sorting twice under one mode is sorting once |
| `Seqs.Filter` | dist/js/app.js:102 | `filter` keeps only elements of the input that pass the test, and never lengthens it |
| `Seqs.FilterSubSeq` | dist/js/app.js:106 | `filter` keeps the input order: its result is a subsequence of the input |
| `Seqs.FilterCounts` | dist/js/app.js:106 | `filter` keeps every occurrence of each passing element and drops every failing one |
| `Seqs.FilterUnique` | dist/js/app.js:106 | the two facts above determine the filter result: any subsequence with those counts equals it |
| `Seqs.FilterEmpty` | dist/js/app.js:102 | the filter result is empty exactly when no element passes |
| `Seqs.FilterLast` | dist/js/app.js:102 | the last element `filter` keeps (what `.pop()` returns) is the last passing element of the input |
| `Seqs.FilterAll` | dist/js/app.js:106 | when every element passes, the filter returns the whole input |
| `Seqs.SubSeqMultiset` | dist/js/app.js:106 | a subsequence never holds an element more often than its host |
| `UserManager.InitValid` | dist/js/app.js:59-62 | a new manager is empty and satisfies the store invariant: unique ids, and a view drawn from the canonical list |
| `UserManager.FindById` | dist/js/app.js:101-103 | `findById` hits exactly when some stored record has the id; a hit is the last stored record with that id |
| `UserManager.FindByIdHit` | dist/js/app.js:101-103 | a hit carries the requested id and is a stored record |
| `UserManager.FoundIffId` | dist/js/app.js:101-103 | `findById` finds a record exactly when the id is among the stored ids |
| `UserManager.FindByIdUnique` | dist/js/app.js:101-103 | with unique ids, looking up a stored record's id returns that record |
| `UserManager.ExtendsKeepsFound` | dist/js/app.js:93 | appending to the canonical list never turns a hit into a miss |
| `UserManager.CreateUser` | dist/js/app.js:92-95 | `createUser` appends the record at the end of both lists, keeping their earlier contents. The count grows by one, the id now finds the record, and no other lookup changes |
| `UserManager.SortUsers` | dist/js/app.js:85-90 | `sortUsers` stores the token as the current filter, permutes the view into the token's order, and leaves the canonical list alone |
| `UserManager.SearchByName` | dist/js/app.js:105-108 | `searchByName` makes the view the subsequence of the canonical list holding exactly the records whose name contains the phrase; the canonical list and filter are untouched |
| `UserManager.SearchExact` | dist/js/app.js:105-108 | the search result is the only such subsequence of the canonical list |
| `UserManager.SearchEmptyPhrase` | dist/js/app.js:106 | the empty phrase shows the whole canonical list in insertion order |
| `UserManager.SearchForgetsView` | dist/js/app.js:106 | a search ignores the earlier view: a previous sort or search does not change its result |
| `UserManager.SearchMembership` | dist/js/app.js:106 | a record is shown after a search exactly when it is stored and its name contains the phrase |
| `Observer.Subscribe` | dist/js/app.js:124-129 | `subscribe` registers a handler only for an event name with no list yet; other names are untouched; one handler per name is preserved |
| `Observer.Publish` | dist/js/app.js:131-137 | `publish` calls each registered handler of the name, in order, with the payload; an unknown name calls nothing |
| `Observer.SubscribeFirstWins` | dist/js/app.js:124-129 | a second subscription to a taken name is a no-op |
| `Observer.PublishCallsOnce` | dist/js/app.js:124-137 | on a bus built by subscribe, publishing to a registered name calls its one handler exactly once |
| `Observer.SubscribeThenPublish` | dist/js/app.js:124-137 | subscribing to a fresh name and then publishing there calls that handler once, with the payload |
| `Components.Ingest` | dist/js/app.js:286-289 | a row mount creates its record only when the id misses. On a hit nothing changes. On a miss it is exactly `createUser`: both lists gain the record at the end, the count grows by one, and the id then finds the record |
| `Components.IngestIdempotent` | dist/js/app.js:286-289 | mounting the same record twice is mounting it once |
| `Components.CreateUserTwice` | dist/js/app.js:92-95 | `createUser` alone is not idempotent: two calls add two records |
| `Components.Firsts` | dist/js/app.js:240-243 | the records a run of row mounts keeps, given the ids already seen: a subsequence of the list, so in list order, holding only records whose id is unseen, no two with one id, and every id of the list either seen or kept |
| `Components.FirstsFresh` | dist/js/app.js:240-243 | a list with unique, unseen ids is kept whole and in order |
| `Components.FirstsFirstWins` | dist/js/app.js:286-289 | of several records sharing an unseen id, the first in the list is the one kept |
| `Components.IngestAppends` | dist/js/app.js:286-289 | a row mount whose id is among the stored ids changes nothing; otherwise it appends the record to both lists and adds its id to the stored ids |
| `Components.RenderRowsAppends` | dist/js/app.js:240-243 | mounting a list of rows appends to both lists, in list order, exactly the first record of each id the store does not hold yet |
| `Components.RenderRows` | dist/js/app.js:240-243 | mounting a list of rows leaves every row's id findable, only appends records from the list, and keeps the store invariant |
| `Components.RenderRowsIdle` | dist/js/app.js:240-243 | re-mounting rows whose ids are all stored changes nothing |
| `Components.RenderViewIdle` | dist/js/app.js:236-243 | re-rendering the list with records drawn from the canonical list changes nothing |
| `Components.Notify` | dist/js/app.js:236-253 | a sidebar notification leaves the store alone; so does a list notification carrying stored records |
| `Components.SubscribeComponents` | dist/js/app.js:259-264 | the list subscribes to `onUserSearchInput`, then the sidebar (line 336) subscribes to `onUserListItemClick`; one handler per name is kept |
| `App.ClickHandler` | dist/js/app.js:187-205 | the row branch publishes `onUserListItemClick` with `findById(rowId)`; the sort branch sorts by the successor token, publishes the sorted view and stores that token; the branches are independent, and the canonical list never changes |
| `App.InputHandler` | dist/js/app.js:207-215 | inside the search field, the view becomes `searchByName`'s result and is published once. That result is the subsequence of the canonical list holding every occurrence of each record whose name contains the value. Elsewhere nothing happens |
| `App.Mount` | dist/js/app.js:161-166 | mounting the fetched records gives a store with unique ids, view equal to the canonical list, every fetched id findable, and no more records than fetched; the bus is wired |
| `App.MountOrder` | dist/js/app.js:161-166 | the mounted canonical list and view are the fetched records in fetch order, keeping the first record of each id |
| `App.MountUniqueData` | dist/js/app.js:161-166 | fetched records without repeated ids are mounted exactly as fetched, in both lists |
| `App.MountFirstWins` | dist/js/app.js:161-166 | when fetched records share an id, looking the id up returns the first of them |
| `App.Deliver` | dist/js/app.js:110-116 | on a one-handler bus, delivering publications makes at most one call per publication |
| `App.DeliverWired` | dist/js/app.js:110-116 | on the mounted bus each event reaches exactly its one component |
| `App.RowClickNotifiesSidebar` | dist/js/app.js:193-196 | a row click alone changes no store and reaches only the sidebar, with the looked-up record |
| `App.SortClickNotifiesList` | dist/js/app.js:198-204 | a toggle click alone reaches only the list, with the sorted view, and the re-mounted rows add nothing |
| `App.NestedClickRunsBoth` | dist/js/app.js:187-205 | a click inside both a row and a toggle notifies the sidebar, then the list |
| `App.InputNotifiesList` | dist/js/app.js:207-215 | typing reaches only the list, with the search result, and the re-mounted rows add nothing |
| `App.ToggleTwice` | dist/js/app.js:198-204 | a toggle's first click sorts by the opposite direction of its token on the same key; its second click restores the token |
| `Scenarios.MountDeduplicates` | dist/js/app.js:286-289 | mounting Bob and Ann stores both, in fetch order; mounting Bob's row again adds nothing |
| `Scenarios.SortScenario` | dist/js/app.js:85-90 | Bob (30) and Ann (25) sort to Ann, Bob both alphabetically and by ascending age |
| `Scenarios.FirstAlphabetClick` | dist/js/app.js:198-204 | the alphabet toggle's first click, read from its mounted token `'alphabet'`, sorts in reverse alphabetical order, turning view Ann, Bob into Bob, Ann, and leaves token `'non-alphabet'` |
| `Scenarios.FirstAgeClick` | dist/js/app.js:198-204 | the age toggle's first click, read from its mounted token `'age-grow'`, sorts oldest first and leaves token `'age-fall'` |
| `Scenarios.SearchScenario` | dist/js/app.js:105-108 | search is case-sensitive: "An" finds Ann, while "an" and "AN" find nobody |
| `Scenarios.RowScenario` | dist/js/app.js:187-196 | clicking the row with id 2 publishes Ann |

## Left out

- DOM construction and patching are not modelled: `Utils.elt`, `Utils.append`, the `innerHTML` templates, and `getDOMComponentNode`. This covers `UserData`, `SearchBar`, `ToolBar`, `AlphabetSortTool` and `AgeSortTool`. It is rendering with nothing to state beyond "the list shows the view". Only the toggles' mounted tokens `'alphabet'` and `'age-grow'` are used, in `Scenarios.FirstAlphabetClick` and `Scenarios.FirstAgeClick`.
- The sidebar's redraw is not modelled; only its subscription is. On a lookup miss, `UserBar.render` falls back to the first fetched record (`userData || this.data`). Because the payload is falsy, it writes into a detached element, so the visible sidebar does not change.
- `App.sendAjax`, `App.init`, the promise chain and `console.log` are asynchronous I/O. The fetched array is the parameter of `App.Mount`.
- `server.js` (a static file server reading a JSON file) and `gulpfile.js` (build tooling) are not part of this model.
- Ids are one normalised type (`int`). The JavaScript loose equality between numeric and string ids is not modelled.
- Only the four sort tokens are modelled. For an unknown token the source looks up `util[undefined]` and throws.
- Records are values. The two separate `new User` copies that `createUser` makes, and reference identity in general, are not modelled.
- The input value is taken from the event descriptor. The source reads `e.target.value`.
- Ages are mathematical integers. JavaScript number arithmetic (floating point, `NaN` from non-numeric ages) is not modelled.
- `Strings.Less`: compares characters by code point, where JavaScript compares UTF-16 code units. On well-formed strings the two orders differ in one case only: a character outside the Basic Multilingual Plane (encoded with a surrogate pair, whose first unit is in D800–DBFF) is compared with a character in U+E000–U+FFFF. Code points put the latter first; code units put it last. Strings holding lone surrogates cannot be expressed, because a Dafny `char` is a Unicode scalar value.
- `Strings.IndexOf`: counts positions in code points, not UTF-16 code units. So `"\u{1F600}Ann".indexOf("Ann")` is 2 in JavaScript and 1 in the model. Strings holding lone surrogates, which `JSON.parse` can produce from escapes, are not modelled. `Strings.Contains` still agrees with the `indexOf(...) !== -1` test of line 106 on every well-formed string, and that test is the only use the code makes of the position.
- `Sorting.Sort`: the engine's sort algorithm is not modelled, and neither is the stability that current engines guarantee. The contract states only permutation plus sortedness; the insertion sort that meets it happens to be stable, but this is not proved.
- `App.Mount`: does not model that an empty fetched array makes the mount throw. `new UserBar(data[0])` then renders `undefined.name`. The throw comes after both subscriptions, and the promise chain catches and logs it. The store and bus end up as modelled, but the container is not appended.
- `Observer.Subscribe`: treats every event name as unregistered until subscribed. The source keeps handlers in a plain object, so names inherited from `Object.prototype` (`"toString"`, `"constructor"`, `"__proto__"`) already look registered, and `subscribe` ignores them. The program only uses `onUserSearchInput` and `onUserListItemClick`.
- `Observer.Publish`: treats an unsubscribed name as calling nothing. For a name inherited from `Object.prototype`, the source instead calls `forEach` on a non-array and throws a `TypeError`. The program never publishes such a name.
- `App.Deliver`: states only a bound on the number of calls for an arbitrary bus. The exact calls on the mounted bus are in `App.DeliverWired`.

=== FILE: app.dfy ===
/** The interaction dispatch of `App` and the mount done by `App.render`.
    An interaction is described by what the event's target lies inside: a
    row (carrying its record id), a sort toggle (carrying its sort-state
    token), the search field (carrying the input's value). A handler maps the
    store to a new store and the list of (event, payload) publications it
    makes, in order. */
module App {
  import opened Options
  import opened SortModes
  import opened UserRecord
  import opened Utils
  import opened UserManager
  import opened Observer
  import opened Components

  /** A click: the id of the enclosing row, the token of the enclosing
      sort toggle, each absent when there is no such ancestor. */
  datatype Click = Click(rowId: Option<Id>, sortState: Option<SortMode>)

  /** The store after a click, what it published, and the token the toggle
      carries afterwards (absent when no toggle was hit). */
  datatype ClickOutcome = ClickOutcome(
    store: Store,
    published: seq<(EventName, Payload)>,
    sortState: Option<SortMode>)

  /** The row branch: look the row's record up and publish it. */
  function SelectRow(st: Store, id: Id): seq<(EventName, Payload)> {
    [(SelectEvent, SelectedUser(FindById(st, id)))]
  }

  /** `clickHandler`: the row branch and the sort branch are checked
      independently, so one click inside both runs both, row first. */
  function ClickHandler(st: Store, c: Click): (o: ClickOutcome)
    ensures o.store.users == st.users
    ensures Valid(st) ==> Valid(o.store)
    ensures |o.published| == (if c.rowId.Some? then 1 else 0) + (if c.sortState.Some? then 1 else 0)
    ensures c.rowId.Some? ==> o.published[0] == (SelectEvent, SelectedUser(FindById(st, c.rowId.value)))
    ensures c.sortState.None? ==> o.store == st && o.sortState == None
    ensures c.sortState.Some? ==>
              && o.store.current == Next(c.sortState.value)
              && o.sortState == Some(o.store.current)
              && multiset(o.store.view) == multiset(st.view)
              && Sorted(o.store.current, o.store.view)
              && o.published[|o.published| - 1] == (SearchEvent, SearchResults(o.store.view))
  {
    var rowPart := if c.rowId.Some? then SelectRow(st, c.rowId.value) else [];
    match c.sortState
    case None => ClickOutcome(st, rowPart, None)
    case Some(current) =>
      var next := Next(current);
      var sorted := SortUsers(st, next);
      ClickOutcome(sorted, rowPart + [(SearchEvent, SearchResults(sorted.view))], Some(next))
  }

  /** `inputHandler`: inside the search field, search by the value and
      publish the new working view; elsewhere, nothing. */
  function InputHandler(st: Store, value: Option<string>): (o: (Store, seq<(EventName, Payload)>))
    ensures o.0.users == st.users && o.0.current == st.current
    ensures Valid(st) ==> Valid(o.0)
    ensures value.None? ==> o.0 == st && o.1 == []
    ensures value.Some? ==> o.1 == [(SearchEvent, SearchResults(o.0.view))]
    ensures value.Some? ==> Seqs.SubSeq(o.0.view, st.users)
    ensures value.Some? ==>
              forall u :: multiset(o.0.view)[u] == if Strings.Contains(u.name, value.value) then multiset(st.users)[u] else 0
    ensures value.Some? ==> forall u :: u in o.0.view <==> u in st.users && Strings.Contains(u.name, value.value)
  {
    match value
    case None => (st, [])
    case Some(v) =>
      var r := SearchByName(st, v);
      forall u
        ensures u in r.view <==> u in st.users && Strings.Contains(u.name, v)
      {
        SearchMembership(st, v, u);
      }
      (r, [(SearchEvent, SearchResults(r.view))])
  }

  /** The bus as the mount leaves it. */
  predicate Wired(b: Bus<Component>) {
    b.subscribers == map[SearchEvent := [UserListView], SelectEvent := [UserBarView]]
  }

  /** `App.render`: mounts the list (subscribing it, then mounting one row
      per fetched record) and the sidebar (subscribing it). */
  function Mount(data: seq<User>): (o: (Store, Bus<Component>))
    ensures Valid(o.0)
    ensures o.0.view == o.0.users
    ensures o.0.current == Alphabet
    ensures forall u :: u in data ==> FindById(o.0, u.id).Some?
    ensures forall u :: u in o.0.users ==> u in data
    ensures UsersCount(o.0) <= |data|
    ensures Wired(o.1)
  {
    InitValid();
    var st := RenderRows(Init(), data);
    assert forall u :: u in st.users ==> u in data;
    (st, SubscribeComponents(Empty()))
  }

  /** The mounted list holds, in fetch order, the first record of every id
      the fetched data carries. */
  lemma MountOrder(data: seq<User>)
    ensures Mount(data).0.users == Firsts({}, data)
    ensures Mount(data).0.view == Firsts({}, data)
  {
    assert Ids(Init().users) == {};
    RenderRowsAppends(Init(), data);
  }

  /** Data without repeated ids is mounted exactly as fetched. */
  lemma MountUniqueData(data: seq<User>)
    requires UniqueIds(data)
    ensures Mount(data).0.users == data
    ensures Mount(data).0.view == data
  {
    MountOrder(data);
    FirstsFresh({}, data);
  }

  /** Among fetched records sharing an id, the first one is the one a
      lookup returns. */
  lemma MountFirstWins(data: seq<User>, i: int)
    requires 0 <= i < |data|
    requires forall j :: 0 <= j < i ==> data[j].id != data[i].id
    ensures FindById(Mount(data).0, data[i].id) == Some(data[i])
  {
    var st := Mount(data).0;
    MountOrder(data);
    FirstsFirstWins({}, data, i);
    var k :| 0 <= k < |st.users| && st.users[k] == data[i];
    FindByIdUnique(st, k);
  }

  /** The handler calls a sequence of publications makes on a bus. */
  function Deliver(b: Bus<Component>, pubs: seq<(EventName, Payload)>): (calls: seq<(Component, Payload)>)
    ensures OneHandlerEach(b) ==> |calls| <= |pubs|
    decreases |pubs|
  {
    if |pubs| == 0 then []
    else Publish(b, pubs[0].0, pubs[0].1) + Deliver(b, pubs[1..])
  }

  /** On the mounted bus each event reaches its one component. */
  lemma DeliverWired(b: Bus<Component>, p: Payload, q: Payload)
    requires Wired(b)
    ensures Deliver(b, [(SearchEvent, p)]) == [(UserListView, p)]
    ensures Deliver(b, [(SelectEvent, p)]) == [(UserBarView, p)]
    ensures Deliver(b, [(SelectEvent, p), (SearchEvent, q)]) == [(UserBarView, p), (UserListView, q)]
  {
    assert SearchEvent != SelectEvent;
    assert Publish(b, SearchEvent, p) == [(UserListView, p)];
    assert Publish(b, SelectEvent, p) == [(UserBarView, p)];
    assert Publish(b, SearchEvent, q) == [(UserListView, q)];
    assert [(SelectEvent, p), (SearchEvent, q)][1..] == [(SearchEvent, q)];
  }

  /** A row click alone reaches the sidebar only, with the looked-up record. */
  lemma RowClickNotifiesSidebar(st: Store, b: Bus<Component>, id: Id)
    requires Wired(b)
    ensures var o := ClickHandler(st, Click(Some(id), None));
            && o.store == st
            && Deliver(b, o.published) == [(UserBarView, SelectedUser(FindById(st, id)))]
  {
    DeliverWired(b, SelectedUser(FindById(st, id)), SelectedUser(None));
  }

  /** A toggle click alone reaches the list only, with the re-sorted view,
      and the rows the list re-mounts add nothing to the store. */
  lemma SortClickNotifiesList(st: Store, b: Bus<Component>, token: SortMode)
    requires Wired(b)
    requires Valid(st)
    ensures var o := ClickHandler(st, Click(None, Some(token)));
            && Deliver(b, o.published) == [(UserListView, SearchResults(o.store.view))]
            && NotifyAll(o.store, Deliver(b, o.published)) == o.store
  {
    var o := ClickHandler(st, Click(None, Some(token)));
    DeliverWired(b, SearchResults(o.store.view), SearchResults([]));
    assert o.published == [(SearchEvent, SearchResults(o.store.view))];
  }

  /** A click inside both a row and a toggle runs both branches: the sidebar
      is told first, the list second. */
  lemma NestedClickRunsBoth(st: Store, b: Bus<Component>, id: Id, token: SortMode)
    requires Wired(b)
    ensures var o := ClickHandler(st, Click(Some(id), Some(token)));
            Deliver(b, o.published) ==
              [(UserBarView, SelectedUser(FindById(st, id))), (UserListView, SearchResults(o.store.view))]
  {
    var o := ClickHandler(st, Click(Some(id), Some(token)));
    DeliverWired(b, SelectedUser(FindById(st, id)), SearchResults(o.store.view));
    assert o.published == [(SelectEvent, SelectedUser(FindById(st, id))), (SearchEvent, SearchResults(o.store.view))];
  }

  /** Typing in the search field re-renders the list with the search result,
      and the re-mounted rows add nothing to the store. */
  lemma InputNotifiesList(st: Store, b: Bus<Component>, v: string)
    requires Wired(b)
    requires Valid(st)
    ensures var o := InputHandler(st, Some(v));
            && Deliver(b, o.1) == [(UserListView, SearchResults(SearchByName(st, v).view))]
            && NotifyAll(o.0, Deliver(b, o.1)) == o.0
  {
    var o := InputHandler(st, Some(v));
    DeliverWired(b, SearchResults(o.0.view), SearchResults([]));
  }

  /** Clicking the same toggle twice sorts by the opposite direction and then
      returns the toggle to the token it started with. */
  lemma ToggleTwice(st: Store, token: SortMode)
    ensures var o1 := ClickHandler(st, Click(None, Some(token)));
            var o2 := ClickHandler(o1.store, Click(None, o1.sortState));
            && o2.sortState == Some(token)
            && o1.store.current != token
            && Key(o1.store.current) == Key(token)
  {
    NextInvolution(token);
  }
}

=== FILE: components.dfy ===
/** What the list and sidebar components do to the user store and the bus.
    Their DOM work is abstracted away: a row mount is its ingest into the
    store, and a re-render of the list is the row mounts it performs. */
module Components {
  import opened Options
  import opened Seqs
  import opened UserRecord
  import opened UserManager
  import opened Observer

  /** The two components that subscribe to the bus. */
  datatype Component = UserListView | UserBarView

  /** What is published: a looked-up record (possibly absent) for the
      sidebar, or a list of records for the list. */
  datatype Payload = SelectedUser(user: Option<User>) | SearchResults(users: seq<User>)

  const SearchEvent: EventName := "onUserSearchInput"
  const SelectEvent: EventName := "onUserListItemClick"

  /** `UserRow.init`: a record is created in the store only when no record
      with its id is there yet. */
  function Ingest(st: Store, u: User): (r: Store)
    ensures FindById(st, u.id).Some? ==> r == st
    ensures FindById(st, u.id).None? ==> r == CreateUser(st, u)
    ensures FindById(st, u.id).None? ==> FindById(r, u.id) == Some(u)
    ensures FindById(st, u.id).None? ==> |r.view| == |st.view| + 1 && r.view[|st.view|] == u
    ensures FindById(r, u.id).Some?
    ensures UsersCount(r) == UsersCount(st) + (if FindById(st, u.id).Some? then 0 else 1)
    ensures Extends(r, st)
    ensures forall x :: x in r.users ==> x in st.users || x == u
    ensures r.current == st.current
    ensures st.view == st.users ==> r.view == r.users
    ensures Valid(st) ==> Valid(r)
  {
    if FindById(st, u.id).Some? then st
    else
      var r := CreateUser(st, u);
      assert r.users == st.users + [u];
      assert UniqueIds(st.users) ==> UniqueIds(r.users);
      r
  }

  /** Ingesting a record twice is ingesting it once. */
  lemma IngestIdempotent(st: Store, u: User)
    ensures Ingest(Ingest(st, u), u) == Ingest(st, u)
  {
  }

  /** `createUser` on its own is not idempotent: every call adds a record. */
  lemma CreateUserTwice(st: Store, u: User)
    ensures UsersCount(CreateUser(CreateUser(st, u), u)) == UsersCount(st) + 2
  {
  }

  /** What `Firsts` promises of `r`, drawn from `us` given the ids `seen`. */
  ghost predicate KeepsFirsts(seen: set<Id>, us: seq<User>, r: seq<User>) {
    && (forall x :: x in r ==> x in us && x.id !in seen)
    && UniqueIds(r)
    && Ids(r) + seen == Ids(us) + seen
    && SubSeq(r, us)
  }

  /** A record whose id is already seen may be dropped from the front. */
  lemma SkipSeenFront(seen: set<Id>, u: User, tail: seq<User>, r: seq<User>)
    requires u.id in seen
    requires KeepsFirsts(seen, tail, r)
    ensures KeepsFirsts(seen, [u] + tail, r)
  {
    IdsCons(u, tail);
    SubSeqSkipFront(u, r, tail);
  }

  /** A record with a new id is kept in front of what its tail keeps once
      that id counts as seen. */
  lemma KeepNewFront(seen: set<Id>, u: User, tail: seq<User>, rest: seq<User>)
    requires u.id !in seen
    requires KeepsFirsts(seen + {u.id}, tail, rest)
    ensures KeepsFirsts(seen, [u] + tail, [u] + rest)
  {
    IdsCons(u, tail);
    IdsCons(u, rest);
    UniqueCons(u, rest);
    SubSeqConsBoth(u, rest, tail);
  }

  /** The records of `us`, in list order, whose id is neither in `seen` nor
      carried by an earlier record of `us`: the first record per new id. */
  function Firsts(seen: set<Id>, us: seq<User>): (r: seq<User>)
    ensures forall x :: x in r ==> x in us && x.id !in seen
    ensures UniqueIds(r)
    ensures Ids(r) + seen == Ids(us) + seen
    ensures SubSeq(r, us)
    decreases |us|
  {
    if |us| == 0 then []
    else
      assert us == [us[0]] + us[1..];
      if us[0].id in seen then
        var r := Firsts(seen, us[1..]);
        SkipSeenFront(seen, us[0], us[1..], r);
        r
      else
        var rest := Firsts(seen + {us[0].id}, us[1..]);
        KeepNewFront(seen, us[0], us[1..], rest);
        [us[0]] + rest
  }

  /** With unique ids, none of them seen yet, every record is a first one. */
  lemma {:induction false} FirstsFresh(seen: set<Id>, us: seq<User>)
    requires UniqueIds(us)
    requires forall i :: 0 <= i < |us| ==> us[i].id !in seen
    ensures Firsts(seen, us) == us
    decreases |us|
  {
    if |us| > 0 {
      var rest := us[1..];
      var seen' := seen + {us[0].id};
      forall i | 0 <= i < |rest|
        ensures rest[i].id !in seen'
      {
        assert rest[i] == us[i + 1];
      }
      assert UniqueIds(rest) by {
        forall i, j | 0 <= i < j < |rest|
          ensures rest[i].id != rest[j].id
        {
          assert rest[i] == us[i + 1] && rest[j] == us[j + 1];
        }
      }
      FirstsFresh(seen', rest);
      FirstsStep(seen, us);
      assert [us[0]] + rest == us;
    }
  }

  /** The first record carrying an unseen id is kept. */
  lemma {:induction false} FirstsFirstWins(seen: set<Id>, us: seq<User>, i: int)
    requires 0 <= i < |us|
    requires us[i].id !in seen
    requires forall j :: 0 <= j < i ==> us[j].id != us[i].id
    ensures us[i] in Firsts(seen, us)
    decreases |us|
  {
    if i > 0 {
      var rest := us[1..];
      assert rest[i - 1] == us[i];
      if us[0].id in seen {
        FirstsFirstWins(seen, rest, i - 1);
      } else {
        FirstsFirstWins(seen + {us[0].id}, rest, i - 1);
      }
    }
  }

  /** One row mount in terms of stored ids: a known id changes nothing, a
      new id appends the record to both lists. */
  lemma IngestAppends(st: Store, u: User)
    ensures u.id in Ids(st.users) ==> Ingest(st, u) == st
    ensures u.id !in Ids(st.users) ==>
              && Ingest(st, u).users == st.users + [u]
              && Ingest(st, u).view == st.view + [u]
              && Ids(Ingest(st, u).users) == Ids(st.users) + {u.id}
  {
    FoundIffId(st, u.id);
    if u.id !in Ids(st.users) {
      assert Ids(st.users + [u]) == Ids(st.users) + {u.id};
    }
  }

  /** The row mounts of `UserList.render`: one `UserRow.init` per record,
      in list order. */
  function RenderRows(st: Store, us: seq<User>): (r: Store)
    ensures forall u :: u in us ==> FindById(r, u.id).Some?
    ensures UsersCount(st) <= UsersCount(r) <= UsersCount(st) + |us|
    ensures Extends(r, st)
    ensures forall x :: x in r.users ==> x in st.users || x in us
    ensures r.current == st.current
    ensures st.view == st.users ==> r.view == r.users
    ensures Valid(st) ==> Valid(r)
    decreases |us|
  {
    if |us| == 0 then st
    else
      var next := Ingest(st, us[0]);
      var r := RenderRows(next, us[1..]);
      assert Extends(r, st) by {
        assert r.users[..|next.users|][..|st.users|] == r.users[..|st.users|];
      }
      ExtendsKeepsFound(next, r, us[0].id);
      assert forall u :: u in us ==> u == us[0] || u in us[1..];
      r
  }

  /** One unfolding of `RenderRows`. */
  lemma RenderRowsStep(st: Store, us: seq<User>)
    requires |us| > 0
    ensures RenderRows(st, us) == RenderRows(Ingest(st, us[0]), us[1..])
  {
  }

  /** Concatenation regroups freely. */
  lemma AppendAssoc(a: seq<User>, b: seq<User>, c: seq<User>)
    ensures a + b + c == a + (b + c)
  {
  }

  /** One unfolding of `Firsts` when the head's id is new. */
  lemma FirstsStep(seen: set<Id>, us: seq<User>)
    requires |us| > 0 && us[0].id !in seen
    ensures Firsts(seen, us) == [us[0]] + Firsts(seen + {us[0].id}, us[1..])
  {
  }

  /** Mounting rows appends, to both lists and in list order, exactly the
      first record of every id the store does not hold yet. */
  lemma {:induction false} RenderRowsAppends(st: Store, us: seq<User>)
    ensures RenderRows(st, us).users == st.users + Firsts(Ids(st.users), us)
    ensures RenderRows(st, us).view == st.view + Firsts(Ids(st.users), us)
    decreases |us|
  {
    if |us| > 0 {
      var next := Ingest(st, us[0]);
      RenderRowsStep(st, us);
      IngestAppends(st, us[0]);
      RenderRowsAppends(next, us[1..]);
      if us[0].id !in Ids(st.users) {
        var tail := Firsts(Ids(next.users), us[1..]);
        FirstsStep(Ids(st.users), us);
        AppendAssoc(st.users, [us[0]], tail);
        AppendAssoc(st.view, [us[0]], tail);
      }
    }
  }

  /** Re-rendering rows whose ids are all in the store changes nothing. */
  lemma {:induction false} RenderRowsIdle(st: Store, us: seq<User>)
    requires forall u :: u in us ==> FindById(st, u.id).Some?
    ensures RenderRows(st, us) == st
    decreases |us|
  {
    if |us| > 0 {
      RenderRowsIdle(st, us[1..]);
    }
  }

  /** Records drawn from the canonical list are all found by id, so
      re-rendering the working view never adds to the store. */
  lemma RenderViewIdle(st: Store, us: seq<User>)
    requires multiset(us) <= multiset(st.users)
    ensures RenderRows(st, us) == st
  {
    forall u | u in us
      ensures FindById(st, u.id).Some?
    {
      assert u in multiset(st.users);
      var i :| 0 <= i < |st.users| && st.users[i] == u;
    }
    RenderRowsIdle(st, us);
  }

  /** What a notified component does to the store: the list re-mounts one
      row per record it receives; the sidebar only redraws itself. */
  function Notify(st: Store, c: Component, p: Payload): (r: Store)
    ensures c == UserBarView ==> r == st
    ensures p.SearchResults? && multiset(p.users) <= multiset(st.users) ==> r == st
    ensures Valid(st) ==> Valid(r)
  {
    match (c, p)
    case (UserListView, SearchResults(us)) =>
      assert multiset(us) <= multiset(st.users) ==> RenderRows(st, us) == st by {
        if multiset(us) <= multiset(st.users) {
          RenderViewIdle(st, us);
        }
      }
      RenderRows(st, us)
    case _ => st
  }

  /** Runs the calls a publication produced, in order. */
  function NotifyAll(st: Store, calls: seq<(Component, Payload)>): Store
    decreases |calls|
  {
    if |calls| == 0 then st
    else NotifyAll(Notify(st, calls[0].0, calls[0].1), calls[1..])
  }

  /** The subscriptions made by `UserList.init` and `UserBar.init`, in mount
      order: the list takes search results, the sidebar takes selections. */
  function SubscribeComponents(b: Bus<Component>): (r: Bus<Component>)
    ensures SearchEvent !in b.subscribers && SelectEvent !in b.subscribers ==>
              r.subscribers == b.subscribers[SearchEvent := [UserListView]][SelectEvent := [UserBarView]]
    ensures OneHandlerEach(b) ==> OneHandlerEach(r)
  {
    Subscribe(Subscribe(b, SearchEvent, UserListView), SelectEvent, UserBarView)
  }
}

=== FILE: observer.dfy ===
/** The publish/subscribe bus (`Observer`). Each event name maps to the list
    of handlers registered for it; a handler is an opaque tag `H`, and
    publishing yields the calls made, in order, as (handler, payload) pairs. */
module Observer {

  type EventName = string

  datatype Bus<H> = Bus(subscribers: map<EventName, seq<H>>)

  /** A new observer: nothing subscribed. */
  function Empty<H>(): Bus<H> {
    Bus(map[])
  }

  /** What the subscribe guard allows: one handler per event name. */
  predicate OneHandlerEach<H>(b: Bus<H>) {
    forall e :: e in b.subscribers ==> |b.subscribers[e]| == 1
  }

  /** `subscribe`: registers `h` only when `e` has no list yet; a later
      subscription to the same name is silently dropped. Other event names
      are untouched. */
  function Subscribe<H>(b: Bus<H>, e: EventName, h: H): (r: Bus<H>)
    ensures r.subscribers.Keys == b.subscribers.Keys + {e}
    ensures e in b.subscribers ==> r.subscribers[e] == b.subscribers[e]
    ensures e !in b.subscribers ==> r.subscribers[e] == [h]
    ensures forall e' :: e' in b.subscribers && e' != e ==> r.subscribers[e'] == b.subscribers[e']
    ensures OneHandlerEach(b) ==> OneHandlerEach(r)
  {
    if e in b.subscribers then b
    else Bus(b.subscribers[e := [h]])
  }

  /** `publish`: every handler registered for `e` is called with `data`, in
      registration order; an unknown name calls nothing. */
  function Publish<H, D>(b: Bus<H>, e: EventName, data: D): (calls: seq<(H, D)>)
    ensures e !in b.subscribers ==> calls == []
    ensures e in b.subscribers ==> |calls| == |b.subscribers[e]|
    ensures e in b.subscribers ==> forall k :: 0 <= k < |calls| ==> calls[k] == (b.subscribers[e][k], data)
  {
    if e in b.subscribers then
      var hs := b.subscribers[e];
      seq(|hs|, k requires 0 <= k < |hs| => (hs[k], data))
    else []
  }

  /** First subscriber wins: once `h1` holds `e`, subscribing `h2` changes nothing. */
  lemma SubscribeFirstWins<H>(b: Bus<H>, e: EventName, h1: H, h2: H)
    ensures Subscribe(Subscribe(b, e, h1), e, h2) == Subscribe(b, e, h1)
  {
  }

  /** On a bus built by subscribe, publishing to a registered name calls its
      one handler exactly once with the payload. */
  lemma PublishCallsOnce<H, D>(b: Bus<H>, e: EventName, data: D)
    requires OneHandlerEach(b)
    requires e in b.subscribers
    ensures Publish(b, e, data) == [(b.subscribers[e][0], data)]
  {
  }

  /** Subscribing `h` to a fresh name, then publishing there, calls `h` once. */
  lemma SubscribeThenPublish<H, D>(b: Bus<H>, e: EventName, h: H, data: D)
    requires e !in b.subscribers
    ensures Publish(Subscribe(b, e, h), e, data) == [(h, data)]
  {
  }
}

=== FILE: options.dfy ===
/** The "value or undefined" results of the user store (`findById` yields
    `undefined` when no record matches). */
module Options {

  datatype Option<+T> = None | Some(value: T)
}

=== FILE: scenarios.dfy ===
/** Worked examples of the model on two records, Bob (id 1, age 30) and Ann
    (id 2, age 25), fetched in that order. */
module Scenarios {
  import opened Options
  import opened Seqs
  import opened Strings
  import opened SortModes
  import opened UserRecord
  import opened UserManager
  import opened Components
  import opened App

  const Bob := User(1, "Bob", 30, "", "", "", "")
  const Ann := User(2, "Ann", 25, "", "", "", "")

  const JustBob := Store([Bob], [Bob], Alphabet)
  const BobAnn := Store([Bob, Ann], [Bob, Ann], Alphabet)

  lemma MountBob()
    ensures Ingest(Init(), Bob) == JustBob
  {
    assert FindById(Init(), Bob.id).None?;
  }

  lemma MountAnn()
    ensures Ingest(JustBob, Ann) == BobAnn
  {
    assert FindById(JustBob, Ann.id).None?;
    assert [Bob] + [Ann] == [Bob, Ann];
  }

  lemma RenderAnn()
    ensures RenderRows(JustBob, [Ann]) == BobAnn
  {
    MountAnn();
    assert [Ann][1..] == [];
    assert RenderRows(BobAnn, []) == BobAnn;
  }

  lemma RenderBoth()
    ensures RenderRows(Init(), [Bob, Ann]) == BobAnn
  {
    MountBob();
    RenderAnn();
    assert [Bob, Ann][1..] == [Ann];
  }

  /** Mounting both records, then mounting Bob's row again, keeps two records. */
  lemma MountDeduplicates()
    ensures Mount([Bob, Ann]).0 == BobAnn
    ensures Ingest(BobAnn, Bob) == BobAnn
  {
    RenderBoth();
    assert Mount([Bob, Ann]).0 == RenderRows(Init(), [Bob, Ann]);
    assert FindById(BobAnn, Bob.id).Some? by {
      assert BobAnn.users[0].id == Bob.id;
    }
  }

  /** Alphabetical order puts Ann before Bob; so does ascending age. */
  lemma SortScenario()
    ensures SortUsers(BobAnn, Alphabet).view == [Ann, Bob]
    ensures SortUsers(BobAnn, AgeGrow).view == [Ann, Bob]
  {
    assert Less("Ann", "Bob");
    assert !Less("Bob", "Ann");
    assert [Bob, Ann][1..] == [Ann];
    assert [Ann][1..] == [];
  }

  /** The tokens the two sort toggles carry when mounted. */
  const AlphabetToolToken := "alphabet"
  const AgeToolToken := "age-grow"

  /** The first click on the alphabet toggle sorts in reverse alphabetical
      order, turning `[Ann, Bob]` into `[Bob, Ann]`, and the toggle then
      carries `'non-alphabet'`. */
  lemma FirstAlphabetClick()
    ensures var o := ClickHandler(Store([Bob, Ann], [Ann, Bob], Alphabet), Click(None, Parse(AlphabetToolToken)));
            && o.store.view == [Bob, Ann]
            && o.sortState.Some? && Token(o.sortState.value) == "non-alphabet"
  {
    assert Parse(AlphabetToolToken) == Some(Alphabet);
    assert Less("Ann", "Bob");
    assert !Less("Bob", "Ann");
    assert Sorting.Sort(NonAlphabet, [Bob]) == [Bob] by {
      assert [Bob][1..] == [];
    }
    assert Sorting.Insert(NonAlphabet, Ann, [Bob]) == [Bob, Ann] by {
      assert !Utils.InOrder(NonAlphabet, Ann, Bob);
      assert [Bob][1..] == [];
    }
    assert Sorting.Sort(NonAlphabet, [Ann, Bob]) == [Bob, Ann] by {
      assert [Ann, Bob][1..] == [Bob];
    }
  }

  /** The first click on the age toggle sorts oldest first, and the toggle
      then carries `'age-fall'`. */
  lemma FirstAgeClick()
    ensures var o := ClickHandler(Store([Bob, Ann], [Ann, Bob], Alphabet), Click(None, Parse(AgeToolToken)));
            && o.store.view == [Bob, Ann]
            && o.sortState.Some? && Token(o.sortState.value) == "age-fall"
  {
    assert Parse(AgeToolToken) == Some(AgeGrow);
    assert Sorting.Sort(AgeFall, [Bob]) == [Bob] by {
      assert [Bob][1..] == [];
    }
    assert Sorting.Insert(AgeFall, Ann, [Bob]) == [Bob, Ann] by {
      assert !Utils.InOrder(AgeFall, Ann, Bob);
      assert [Bob][1..] == [];
    }
    assert Sorting.Sort(AgeFall, [Ann, Bob]) == [Bob, Ann] by {
      assert [Ann, Bob][1..] == [Bob];
    }
  }

  lemma NameFacts()
    ensures Contains("Ann", "An")
    ensures !Contains("Ann", "an") && !Contains("Ann", "AN")
    ensures !Contains("Bob", "An") && !Contains("Bob", "an") && !Contains("Bob", "AN")
  {
    assert OccursAt("Ann", "An", 0) by {
      assert "Ann"[0..2] == "An";
    }
    assert "Ann"[0..2] == "An" && "Ann"[1..3] == "nn";
    assert "Bob"[0..2] == "Bo" && "Bob"[1..3] == "ob";
  }

  /** Filtering Bob and Ann by a phrase that Bob's name does not contain. */
  lemma FilterPastBob(phrase: string)
    requires !Contains("Bob", phrase)
    ensures Filter([Bob, Ann], NameContains(phrase)) == if Contains("Ann", phrase) then [Ann] else []
  {
    assert [Bob, Ann][..1] == [Bob];
    assert [Bob][..0] == [];
    assert Filter([Bob], NameContains(phrase)) == [];
  }

  /** Search is case-sensitive: "An" finds Ann, "an" and "AN" find nobody. */
  lemma SearchScenario()
    ensures SearchByName(BobAnn, "An").view == [Ann]
    ensures SearchByName(BobAnn, "an").view == []
    ensures SearchByName(BobAnn, "AN").view == []
  {
    NameFacts();
    FilterPastBob("An");
    FilterPastBob("an");
    FilterPastBob("AN");
  }

  /** Clicking Ann's row selects Ann. */
  lemma RowScenario()
    ensures ClickHandler(BobAnn, Click(Some(2), None)).published
            == [(SelectEvent, SelectedUser(Some(Ann)))]
  {
    FindByIdUnique(BobAnn, 1);
  }
}

=== FILE: seqs.dfy ===
/** Sequence helpers shared by the user store: `Array.prototype.filter` and
    the "subsequence of" relation used to state what a filter keeps. */
module Seqs {

  /** The elements of `s` that satisfy `p`, in their order in `s`
      (JavaScript's `Array.prototype.filter`). Defined from the back so that
      `filter(...).pop()` is easy to reason about. */
  function Filter<T>(s: seq<T>, p: T -> bool): (r: seq<T>)
    ensures |r| <= |s|
    ensures forall x :: x in r ==> x in s && p(x)
  {
    if |s| == 0 then []
    else
      var front := Filter(s[..|s| - 1], p);
      if p(s[|s| - 1]) then front + [s[|s| - 1]] else front
  }

  /** `a` can be obtained from `b` by deleting elements: either the last
      elements of both agree and the rest is a subsequence, or the last
      element of `b` is skipped. */
  predicate SubSeq<T(==)>(a: seq<T>, b: seq<T>)
    decreases |b|
  {
    || |a| == 0
    || (&& |b| > 0
        && (|| (a[|a| - 1] == b[|b| - 1] && SubSeq(a[..|a| - 1], b[..|b| - 1]))
            || SubSeq(a, b[..|b| - 1])))
  }

  /** `m` holds exactly the occurrences in `s` of the elements that satisfy `p`. */
  ghost predicate CountsOf<T(!new)>(m: multiset<T>, s: seq<T>, p: T -> bool) {
    forall x :: m[x] == if p(x) then multiset(s)[x] else 0
  }

  lemma SplitLast<T>(s: seq<T>)
    requires |s| > 0
    ensures s == s[..|s| - 1] + [s[|s| - 1]]
    ensures multiset(s) == multiset(s[..|s| - 1]) + multiset{s[|s| - 1]}
  {
    assert s == s[..|s| - 1] + [s[|s| - 1]];
  }

  /** An element put in front of the host can be skipped. */
  lemma {:induction false} SubSeqSkipFront<T>(x: T, a: seq<T>, b: seq<T>)
    requires SubSeq(a, b)
    ensures SubSeq(a, [x] + b)
    decreases |b|
  {
    if |a| > 0 {
      var c := [x] + b;
      assert c[..|c| - 1] == [x] + b[..|b| - 1];
      assert c[|c| - 1] == b[|b| - 1];
      if a[|a| - 1] == b[|b| - 1] && SubSeq(a[..|a| - 1], b[..|b| - 1]) {
        SubSeqSkipFront(x, a[..|a| - 1], b[..|b| - 1]);
      } else {
        SubSeqSkipFront(x, a, b[..|b| - 1]);
      }
    }
  }

  /** The same element put in front of both keeps the relation. */
  lemma {:induction false} SubSeqConsBoth<T>(x: T, a: seq<T>, b: seq<T>)
    requires SubSeq(a, b)
    ensures SubSeq([x] + a, [x] + b)
    decreases |b|
  {
    var c := [x] + a;
    var d := [x] + b;
    if |b| == 0 {
      assert d[..|d| - 1] == [] && c[..|c| - 1] == [];
    } else {
      assert d[..|d| - 1] == [x] + b[..|b| - 1];
      assert d[|d| - 1] == b[|b| - 1];
      if |a| == 0 {
        SubSeqConsBoth(x, a, b[..|b| - 1]);
      } else {
        assert c[..|c| - 1] == [x] + a[..|a| - 1];
        assert c[|c| - 1] == a[|a| - 1];
        if a[|a| - 1] == b[|b| - 1] && SubSeq(a[..|a| - 1], b[..|b| - 1]) {
          SubSeqConsBoth(x, a[..|a| - 1], b[..|b| - 1]);
        } else {
          SubSeqConsBoth(x, a, b[..|b| - 1]);
        }
      }
    }
  }

  /** A subsequence never holds an element more often than its host. */
  lemma {:induction false} SubSeqMultiset<T>(a: seq<T>, b: seq<T>)
    requires SubSeq(a, b)
    ensures multiset(a) <= multiset(b)
    decreases |b|
  {
    if |a| == 0 {
    } else {
      SplitLast(b);
      if a[|a| - 1] == b[|b| - 1] && SubSeq(a[..|a| - 1], b[..|b| - 1]) {
        SubSeqMultiset(a[..|a| - 1], b[..|b| - 1]);
        SplitLast(a);
      } else {
        SubSeqMultiset(a, b[..|b| - 1]);
      }
    }
  }

  /** The filter keeps the order of `s` ... */
  lemma {:induction false} FilterSubSeq<T>(s: seq<T>, p: T -> bool)
    ensures SubSeq(Filter(s, p), s)
    decreases |s|
  {
    if |s| > 0 {
      var front := s[..|s| - 1];
      FilterSubSeq(front, p);
      if p(s[|s| - 1]) {
        var r := Filter(s, p);
        assert r[..|r| - 1] == Filter(front, p);
      }
    }
  }

  /** ... and keeps every occurrence of every element satisfying `p`. */
  lemma {:induction false} FilterCounts<T(!new)>(s: seq<T>, p: T -> bool)
    ensures CountsOf(multiset(Filter(s, p)), s, p)
    decreases |s|
  {
    if |s| > 0 {
      var front := s[..|s| - 1];
      FilterCounts(front, p);
      SplitLast(s);
    }
  }

  /** Filter is the only subsequence of `s` holding exactly the occurrences of
      the elements satisfying `p`: the two facts above characterise it. */
  lemma {:induction false} FilterUnique<T(!new)>(s: seq<T>, p: T -> bool, r: seq<T>)
    requires SubSeq(r, s)
    requires CountsOf(multiset(r), s, p)
    ensures r == Filter(s, p)
    decreases |s|
  {
    FilterCounts(s, p);
    if |s| == 0 {
    } else if |r| == 0 {
      assert multiset(Filter(s, p)) == multiset(r);
    } else {
      var front, x := s[..|s| - 1], s[|s| - 1];
      var r', y := r[..|r| - 1], r[|r| - 1];
      SplitLast(s);
      SplitLast(r);
      assert y in multiset(r);
      if p(x) {
        if !(y == x && SubSeq(r', front)) {
          SubSeqMultiset(r, front);
          assert false;
        }
        assert CountsOf(multiset(r'), front, p);
        FilterUnique(front, p, r');
      } else {
        assert y != x;
        assert CountsOf(multiset(r), front, p);
        FilterUnique(front, p, r);
      }
    }
  }

  /** An empty filter result means no element satisfies `p`. */
  lemma FilterEmpty<T(!new)>(s: seq<T>, p: T -> bool)
    ensures |Filter(s, p)| == 0 <==> forall i :: 0 <= i < |s| ==> !p(s[i])
  {
    FilterCounts(s, p);
    if |Filter(s, p)| == 0 {
      forall i | 0 <= i < |s|
        ensures !p(s[i])
      {
        assert multiset(s)[s[i]] > 0;
      }
    } else {
      var x := Filter(s, p)[0];
      assert x in Filter(s, p);
      var i :| 0 <= i < |s| && s[i] == x;
    }
  }

  /** The last element `filter` keeps is the last element of `s` satisfying
      `p`: it sits at an index after which nothing satisfies `p`. */
  lemma {:induction false} FilterLast<T>(s: seq<T>, p: T -> bool)
    requires |Filter(s, p)| > 0
    ensures exists i :: 0 <= i < |s| && s[i] == Filter(s, p)[|Filter(s, p)| - 1]
                        && p(s[i]) && forall j :: i < j < |s| ==> !p(s[j])
    decreases |s|
  {
    var front := s[..|s| - 1];
    if !p(s[|s| - 1]) {
      FilterLast(front, p);
      var i :| 0 <= i < |front| && front[i] == Filter(front, p)[|Filter(front, p)| - 1]
                && p(front[i]) && forall j :: i < j < |front| ==> !p(front[j]);
      assert forall j :: i < j < |s| ==> !p(s[j]);
    }
  }

  /** When every element satisfies `p`, the filter keeps all of `s`. */
  lemma {:induction false} FilterAll<T>(s: seq<T>, p: T -> bool)
    requires forall i :: 0 <= i < |s| ==> p(s[i])
    ensures Filter(s, p) == s
    decreases |s|
  {
    if |s| > 0 {
      FilterAll(s[..|s| - 1], p);
      SplitLast(s);
    }
  }
}

=== FILE: sort_modes.dfy ===
/** The four sort-state tokens carried by the sort toggles and stored as the
    store's current filter, with the fixed successor table used to toggle. */
module SortModes {
  import opened Options

  /** `'alphabet'`, `'non-alphabet'`, `'age-grow'`, `'age-fall'`. */
  datatype SortMode = Alphabet | NonAlphabet | AgeGrow | AgeFall

  /** The record field a mode orders by. */
  datatype SortKey = ByName | ByAge

  function Key(m: SortMode): SortKey {
    match m
    case Alphabet | NonAlphabet => ByName
    case AgeGrow | AgeFall => ByAge
  }

  predicate Ascending(m: SortMode) {
    m == Alphabet || m == AgeGrow
  }

  /** `getNextFilterState`: the successor in the toggle table keeps the key
      and flips the direction. */
  function Next(m: SortMode): (r: SortMode)
    ensures Key(r) == Key(m)
    ensures Ascending(r) != Ascending(m)
  {
    match m
    case Alphabet => NonAlphabet
    case NonAlphabet => Alphabet
    case AgeGrow => AgeFall
    case AgeFall => AgeGrow
  }

  /** Toggling twice returns to the start, and never stays put. */
  lemma NextInvolution(m: SortMode)
    ensures Next(Next(m)) == m
    ensures Next(m) != m
  {
  }

  /** The string token under which a mode is stored on a toggle element. */
  function Token(m: SortMode): string {
    match m
    case Alphabet => "alphabet"
    case NonAlphabet => "non-alphabet"
    case AgeGrow => "age-grow"
    case AgeFall => "age-fall"
  }

  /** Reads a stored token back; anything but the four tokens is None. */
  function Parse(t: string): Option<SortMode> {
    if t == "alphabet" then Some(Alphabet)
    else if t == "non-alphabet" then Some(NonAlphabet)
    else if t == "age-grow" then Some(AgeGrow)
    else if t == "age-fall" then Some(AgeFall)
    else None
  }

  /** Storing a mode as a token and reading it back loses nothing ... */
  lemma ParseToken(m: SortMode)
    ensures Parse(Token(m)) == Some(m)
  {
  }

  /** ... and every token that reads back came from its mode. */
  lemma TokenParse(t: string)
    ensures Parse(t).Some? ==> Token(Parse(t).value) == t
  {
  }
}

=== FILE: sorting.dfy ===
/** A sort for the working view. The source hands the comparator to the
    engine's `Array.prototype.sort`; this insertion sort stands in for it and
    is specified only by what every correct sort delivers: a permutation of
    its input that is sorted under the comparator. */
module Sorting {
  import opened SortModes
  import opened UserRecord
  import opened Utils

  /** Places `x` in front of the first record it may precede. */
  function Insert(m: SortMode, x: User, s: seq<User>): (r: seq<User>)
    requires Sorted(m, s)
    ensures Sorted(m, r)
    ensures multiset(r) == multiset(s) + multiset{x}
    ensures r[0] == x || (|s| > 0 && r[0] == s[0])
  {
    if |s| == 0 then [x]
    else if InOrder(m, x, s[0]) then [x] + s
    else
      InOrderTotal(m, x, s[0]);
      assert s == [s[0]] + s[1..];
      [s[0]] + Insert(m, x, s[1..])
  }

  /** A record that may precede the whole list is placed in front of it. */
  lemma InsertInFront(m: SortMode, x: User, s: seq<User>)
    requires Sorted(m, s)
    requires |s| == 0 || InOrder(m, x, s[0])
    ensures Insert(m, x, s) == [x] + s
  {
  }

  /** The records of `s`, reordered so that the comparator of `m` never
      objects to an adjacent pair. */
  function Sort(m: SortMode, s: seq<User>): (r: seq<User>)
    ensures Sorted(m, r)
    ensures multiset(r) == multiset(s)
    ensures |r| == |s|
  {
    if |s| == 0 then []
    else
      assert s == [s[0]] + s[1..];
      Insert(m, s[0], Sort(m, s[1..]))
  }

  /** A list already sorted under `m` comes back unchanged. */
  lemma {:induction false} SortKeepsSorted(m: SortMode, s: seq<User>)
    requires Sorted(m, s)
    ensures Sort(m, s) == s
    decreases |s|
  {
    if |s| > 0 {
      var rest := s[1..];
      SortKeepsSorted(m, rest);
      assert Sort(m, s) == Insert(m, s[0], rest);
      InsertInFront(m, s[0], rest);
      assert [s[0]] + rest == s;
    }
  }

  /** Sorting twice under the same mode is sorting once. */
  lemma SortIdempotent(m: SortMode, s: seq<User>)
    ensures Sort(m, Sort(m, s)) == Sort(m, s)
  {
    SortKeepsSorted(m, Sort(m, s));
  }
}

=== FILE: strings.dfy ===
/** The two string primitives the user store relies on: the ordinal `<`
    between names (used by the alphabetical comparators) and
    `String.prototype.indexOf` (used by the name search). */
module Strings {

  /** `a < b` on JavaScript strings: lexicographic on characters, and a
      proper prefix comes first. */
  predicate Less(a: string, b: string)
    decreases |a|
  {
    if |a| == 0 then |b| > 0
    else if |b| == 0 then false
    else if a[0] != b[0] then a[0] < b[0]
    else Less(a[1..], b[1..])
  }

  lemma {:induction false} LessIrreflexive(a: string)
    ensures !Less(a, a)
    decreases |a|
  {
    if |a| > 0 {
      LessIrreflexive(a[1..]);
    }
  }

  /** Exactly one of `a < b`, `a == b`, `b < a` holds. */
  lemma {:induction false} LessTrichotomy(a: string, b: string)
    ensures Less(a, b) || a == b || Less(b, a)
    ensures !(Less(a, b) && Less(b, a))
    decreases |a|
  {
    if |a| > 0 && |b| > 0 && a[0] == b[0] {
      LessTrichotomy(a[1..], b[1..]);
      if a[1..] == b[1..] {
        assert a == [a[0]] + a[1..] && b == [b[0]] + b[1..];
      }
    }
  }

  lemma {:induction false} LessTransitive(a: string, b: string, c: string)
    requires Less(a, b) && Less(b, c)
    ensures Less(a, c)
    decreases |a|
  {
    if |a| > 0 && a[0] == b[0] && b[0] == c[0] {
      LessTransitive(a[1..], b[1..], c[1..]);
    }
  }

  /** `p` occurs in `s` starting at position `i`. */
  predicate OccursAt(s: string, p: string, i: nat) {
    i + |p| <= |s| && s[i..i + |p|] == p
  }

  /** The first position at or after `from` where `p` occurs in `s`, or -1. */
  function IndexFrom(s: string, p: string, from: nat): (r: int)
    ensures r == -1 || (from <= r && OccursAt(s, p, r))
    ensures r == -1 ==> forall i: nat :: from <= i ==> !OccursAt(s, p, i)
    ensures r != -1 ==> forall i: nat :: from <= i < r ==> !OccursAt(s, p, i)
    decreases |s| - from
  {
    if from + |p| > |s| then -1
    else if s[from..from + |p|] == p then from
    else IndexFrom(s, p, from + 1)
  }

  /** `s.indexOf(p)`: the first position where `p` occurs, -1 when it does
      not occur. The empty string occurs at position 0 of every string. */
  function IndexOf(s: string, p: string): (r: int)
    ensures r == -1 <==> forall i: nat :: !OccursAt(s, p, i)
    ensures r != -1 ==> 0 <= r && OccursAt(s, p, r)
                        && forall i: nat :: i < r ==> !OccursAt(s, p, i)
  {
    IndexFrom(s, p, 0)
  }

  /** `s.indexOf(p) !== -1`: `p` is a (case-sensitive) substring of `s`. */
  predicate Contains(s: string, p: string) {
    IndexOf(s, p) != -1
  }

  /** Contains is the plain substring relation. */
  lemma ContainsIff(s: string, p: string)
    ensures Contains(s, p) <==> exists i: nat :: OccursAt(s, p, i)
  {
  }

  /** The empty phrase is contained in every string. */
  lemma ContainsEmpty(s: string)
    ensures Contains(s, "")
  {
    assert OccursAt(s, "", 0);
  }
}

=== FILE: user.dfy ===
/** The user record built from one element of the fetched JSON array. */
module UserRecord {

  /** Identifiers are normalised to one type; the source compares them with
      loose equality so that numeric and string ids of the same value match. */
  type Id = int

  datatype User = User(
    id: Id,
    name: string,
    age: int,
    phone: string,
    image: string,
    phrase: string,
    animal: string)
}

=== FILE: user_manager.dfy ===
/** The user store (`UserManager`): the canonical list of records, which only
    grows by appending, the working view shown by the list, and the current
    sort token. Every operation is a function from the old store to the new
    one; what the source returns alongside is read off the new store. */
module UserManager {
  import opened Options
  import opened Seqs
  import opened Strings
  import opened SortModes
  import opened UserRecord
  import opened Utils
  import opened Sorting

  /** `usersStore`, `tempUsersStore` and `currentFilter`. */
  datatype Store = Store(users: seq<User>, view: seq<User>, current: SortMode)

  /** A new manager: both lists empty, current filter `'alphabet'`. */
  function Init(): Store {
    Store([], [], Alphabet)
  }

  /** No two records share an id. */
  predicate UniqueIds(s: seq<User>) {
    forall i, j :: 0 <= i < j < |s| ==> s[i].id != s[j].id
  }

  /** Every record in the working view is a canonical record, and appears
      there no more often than in the canonical list. */
  ghost predicate ViewFromUsers(st: Store) {
    multiset(st.view) <= multiset(st.users)
  }

  /** The store invariant: unique ids, and a view drawn from the canonical list. */
  ghost predicate Valid(st: Store) {
    UniqueIds(st.users) && ViewFromUsers(st)
  }

  lemma InitValid()
    ensures Valid(Init())
    ensures UsersCount(Init()) == 0
  {
  }

  /** The loose-id test of `findById`, with ids normalised to one type. */
  function HasId(id: Id): User -> bool {
    (u: User) => u.id == id
  }

  /** The test of `searchByName`: `user.name.indexOf(phrase) !== -1`. */
  function NameContains(phrase: string): User -> bool {
    (u: User) => Contains(u.name, phrase)
  }

  /** `u` is the last record of `s` whose id is `id`. */
  ghost predicate LastWithId(s: seq<User>, id: Id, u: User) {
    exists i :: 0 <= i < |s| && s[i] == u && u.id == id
                && forall j :: i < j < |s| ==> s[j].id != id
  }

  /** The canonical list of `r` starts with that of `st`. */
  ghost predicate Extends(r: Store, st: Store) {
    |st.users| <= |r.users| && r.users[..|st.users|] == st.users
  }

  /** The ids carried by the records of `s`. */
  function Ids(s: seq<User>): set<Id> {
    set u | u in s :: u.id
  }

  /** The ids of a list with one more record in front. */
  lemma IdsCons(u: User, s: seq<User>)
    ensures Ids([u] + s) == {u.id} + Ids(s)
  {
    assert forall x :: x in [u] + s <==> x == u || x in s;
  }

  /** A record whose id is new to a list of unique ids keeps them unique
      when put in front. */
  lemma UniqueCons(u: User, s: seq<User>)
    requires UniqueIds(s)
    requires forall x :: x in s ==> x.id != u.id
    ensures UniqueIds([u] + s)
  {
    forall i, j | 0 <= i < j < |[u] + s|
      ensures ([u] + s)[i].id != ([u] + s)[j].id
    {
      if i == 0 {
        assert ([u] + s)[j] == s[j - 1];
        assert s[j - 1] in s;
      }
    }
  }

  /** A lookup hits exactly when the id is among the stored ids. */
  lemma FoundIffId(st: Store, id: Id)
    ensures FindById(st, id).Some? <==> id in Ids(st.users)
  {
    if id in Ids(st.users) {
      var u :| u in st.users && u.id == id;
      var i :| 0 <= i < |st.users| && st.users[i] == u;
    }
  }

  /** `getUsersCount`. */
  function UsersCount(st: Store): nat {
    |st.users|
  }

  /** `findById`: filters the canonical list by id and pops the last match,
      so with duplicate ids the latest record wins; no match gives None. */
  function FindById(st: Store, id: Id): (r: Option<User>)
    ensures r.Some? <==> exists i :: 0 <= i < |st.users| && st.users[i].id == id
    ensures r.Some? ==> LastWithId(st.users, id, r.value)
  {
    var matches := Filter(st.users, HasId(id));
    FilterEmpty(st.users, HasId(id));
    if |matches| == 0 then None
    else
      FilterLast(st.users, HasId(id));
      Some(matches[|matches| - 1])
  }

  /** `createUser`: appends the record to both lists. It does not look for
      an existing record with the same id. */
  function CreateUser(st: Store, u: User): (r: Store)
    ensures UsersCount(r) == UsersCount(st) + 1
    ensures FindById(r, u.id) == Some(u)
    ensures forall id :: id != u.id ==> FindById(r, id) == FindById(st, id)
    ensures multiset(r.users) == multiset(st.users) + multiset{u}
    ensures multiset(r.view) == multiset(st.view) + multiset{u}
    ensures Extends(r, st) && r.users[|st.users|] == u
    ensures |r.view| == |st.view| + 1 && r.view[..|st.view|] == st.view && r.view[|st.view|] == u
    ensures r.current == st.current
    ensures ViewFromUsers(st) ==> ViewFromUsers(r)
  {
    var r := Store(st.users + [u], st.view + [u], st.current);
    assert r.view[..|st.view|] == st.view;
    assert r.users[..|st.users|] == st.users;
    assert LastWithId(r.users, u.id, u) by {
      assert r.users[|st.users|] == u;
    }
    assert forall id :: id != u.id ==> FindById(r, id) == FindById(st, id) by {
      forall id | id != u.id
        ensures FindById(r, id) == FindById(st, id)
      {
        assert Filter(r.users, HasId(id)) == Filter(st.users, HasId(id));
      }
    }
    r
  }

  /** `sortUsers`: records the requested mode as the current filter and
      reorders the working view with that mode's comparator. */
  function SortUsers(st: Store, m: SortMode): (r: Store)
    ensures r.current == m
    ensures r.users == st.users
    ensures multiset(r.view) == multiset(st.view)
    ensures Sorted(m, r.view)
    ensures Valid(st) ==> Valid(r)
  {
    Store(st.users, Sort(m, st.view), m)
  }

  /** `searchByName`: the working view becomes the canonical records whose
      name contains the phrase, in insertion order. */
  function SearchByName(st: Store, phrase: string): (r: Store)
    ensures r.users == st.users
    ensures r.current == st.current
    ensures SubSeq(r.view, st.users)
    ensures forall u :: multiset(r.view)[u] == if Contains(u.name, phrase) then multiset(st.users)[u] else 0
    ensures Valid(st) ==> Valid(r)
  {
    var view := Filter(st.users, NameContains(phrase));
    FilterSubSeq(st.users, NameContains(phrase));
    FilterCounts(st.users, NameContains(phrase));
    SubSeqMultiset(view, st.users);
    Store(st.users, view, st.current)
  }

  /** The search result is the only subsequence of the canonical list that
      keeps exactly the records whose name contains the phrase. */
  lemma SearchExact(st: Store, phrase: string, v: seq<User>)
    requires SubSeq(v, st.users)
    requires forall u :: multiset(v)[u] == if Contains(u.name, phrase) then multiset(st.users)[u] else 0
    ensures SearchByName(st, phrase).view == v
  {
    assert CountsOf(multiset(v), st.users, NameContains(phrase));
    FilterUnique(st.users, NameContains(phrase), v);
  }

  /** An empty phrase shows the whole canonical list, in insertion order. */
  lemma SearchEmptyPhrase(st: Store)
    ensures SearchByName(st, "").view == st.users
  {
    forall i | 0 <= i < |st.users|
      ensures NameContains("")(st.users[i])
    {
      ContainsEmpty(st.users[i].name);
    }
    FilterAll(st.users, NameContains(""));
  }

  /** A search starts from the canonical list, so whatever order or filter
      the working view had before is discarded. */
  lemma SearchForgetsView(st: Store, phrase: string, m: SortMode, earlier: string)
    ensures SearchByName(SortUsers(st, m), phrase).view == SearchByName(st, phrase).view
    ensures SearchByName(SearchByName(st, earlier), phrase).view == SearchByName(st, phrase).view
  {
  }

  /** A record is shown after a search exactly when it is stored and its name
      contains the phrase. */
  lemma SearchMembership(st: Store, phrase: string, u: User)
    ensures u in SearchByName(st, phrase).view <==> u in st.users && Contains(u.name, phrase)
  {
    var r := SearchByName(st, phrase);
    assert u in r.view <==> multiset(r.view)[u] > 0;
    assert u in st.users <==> multiset(st.users)[u] > 0;
  }

  /** Appending to the canonical list never loses a lookup hit. */
  lemma ExtendsKeepsFound(st: Store, r: Store, id: Id)
    requires Extends(r, st)
    requires FindById(st, id).Some?
    ensures FindById(r, id).Some?
  {
    var i :| 0 <= i < |st.users| && st.users[i].id == id;
    assert r.users[i] == st.users[i];
  }

  /** A lookup hit carries the id asked for and is a stored record. */
  lemma FindByIdHit(st: Store, id: Id)
    requires FindById(st, id).Some?
    ensures FindById(st, id).value.id == id
    ensures FindById(st, id).value in st.users
  {
    var u := FindById(st, id).value;
    var i :| 0 <= i < |st.users| && st.users[i] == u && u.id == id
             && forall j :: i < j < |st.users| ==> st.users[j].id != id;
  }

  /** With unique ids the lookup returns the one record with that id. */
  lemma FindByIdUnique(st: Store, i: int)
    requires UniqueIds(st.users)
    requires 0 <= i < |st.users|
    ensures FindById(st, st.users[i].id) == Some(st.users[i])
  {
    var id := st.users[i].id;
    var u := FindById(st, id).value;
    var k :| 0 <= k < |st.users| && st.users[k] == u && u.id == id
             && forall j :: k < j < |st.users| ==> st.users[j].id != id;
    assert k == i;
  }
}

=== FILE: utils.dfy ===
/** The four comparators of the `Utils` helper and the order each imposes.
    A comparator answers like a JavaScript sort callback: negative when its
    first argument goes first, positive when it goes second, 0 for a tie. */
module Utils {
  import opened Strings
  import opened SortModes
  import opened UserRecord

  /** `ageGrowSort`: younger first. */
  function AgeGrowSort(a: User, b: User): int {
    a.age - b.age
  }

  /** `ageFallSort`: older first. */
  function AgeFallSort(a: User, b: User): int {
    b.age - a.age
  }

  /** `alhabeticalSort`: names in ordinal order. */
  function AlphabeticalSort(a: User, b: User): int {
    if Less(b.name, a.name) then 1
    else if Less(a.name, b.name) then -1
    else 0
  }

  /** `nonAlhabeticalSort`: names in reverse ordinal order. */
  function NonAlphabeticalSort(a: User, b: User): int {
    if Less(b.name, a.name) then -1
    else if Less(a.name, b.name) then 1
    else 0
  }

  /** The comparator the `filterControllers` table assigns to a mode. */
  function Compare(m: SortMode, a: User, b: User): int {
    match m
    case Alphabet => AlphabeticalSort(a, b)
    case NonAlphabet => NonAlphabeticalSort(a, b)
    case AgeGrow => AgeGrowSort(a, b)
    case AgeFall => AgeFallSort(a, b)
  }

  /** `a` may stand before `b` in a list sorted under `m`. */
  predicate InOrder(m: SortMode, a: User, b: User) {
    Compare(m, a, b) <= 0
  }

  /** Every adjacent pair is in order under `m`. */
  predicate Sorted(m: SortMode, s: seq<User>) {
    |s| <= 1 || (InOrder(m, s[0], s[1]) && Sorted(m, s[1..]))
  }

  /** The descending comparators are the exact negations of the ascending
      ones: same key, opposite verdict. */
  lemma DescendingNegates(a: User, b: User)
    ensures Compare(NonAlphabet, a, b) == -Compare(Alphabet, a, b)
    ensures Compare(AgeFall, a, b) == -Compare(AgeGrow, a, b)
  {
  }

  /** What "in order" means for each mode, in terms of the record fields. */
  lemma InOrderMeaning(m: SortMode, a: User, b: User)
    ensures m == AgeGrow ==> (InOrder(m, a, b) <==> a.age <= b.age)
    ensures m == AgeFall ==> (InOrder(m, a, b) <==> a.age >= b.age)
    ensures m == Alphabet ==> (InOrder(m, a, b) <==> a.name == b.name || Less(a.name, b.name))
    ensures m == NonAlphabet ==> (InOrder(m, a, b) <==> a.name == b.name || Less(b.name, a.name))
  {
    LessTrichotomy(a.name, b.name);
    LessIrreflexive(a.name);
  }

  /** Every comparator is total: of two records, one may go first. */
  lemma InOrderTotal(m: SortMode, a: User, b: User)
    ensures InOrder(m, a, b) || InOrder(m, b, a)
  {
    LessTrichotomy(a.name, b.name);
  }

  /** Every comparator is transitive, so adjacent order is global order. */
  lemma InOrderTransitive(m: SortMode, a: User, b: User, c: User)
    requires InOrder(m, a, b) && InOrder(m, b, c)
    ensures InOrder(m, a, c)
  {
    InOrderMeaning(m, a, b);
    InOrderMeaning(m, b, c);
    InOrderMeaning(m, a, c);
    if Less(a.name, b.name) && Less(b.name, c.name) {
      LessTransitive(a.name, b.name, c.name);
    }
    if Less(c.name, b.name) && Less(b.name, a.name) {
      LessTransitive(c.name, b.name, a.name);
    }
  }

  /** In a sorted list every earlier record is in order with every later one. */
  lemma {:induction false} SortedPairwise(m: SortMode, s: seq<User>)
    requires Sorted(m, s)
    ensures forall i, j :: 0 <= i < j < |s| ==> InOrder(m, s[i], s[j])
    decreases |s|
  {
    if |s| > 1 {
      SortedPairwise(m, s[1..]);
      forall j | 1 < j < |s|
        ensures InOrder(m, s[0], s[j])
      {
        assert s[1..][0] == s[1] && s[1..][j - 1] == s[j];
        InOrderTransitive(m, s[0], s[1], s[j]);
      }
      forall i, j | 0 < i < j < |s|
        ensures InOrder(m, s[i], s[j])
      {
        assert s[1..][i - 1] == s[i] && s[1..][j - 1] == s[j];
      }
    }
  }

  /** Sorted under `age-grow`: ages never decrease along the list; under
      `alphabet`: names never decrease in ordinal order. */
  lemma SortedMeaning(m: SortMode, s: seq<User>)
    requires Sorted(m, s)
    ensures m == AgeGrow ==> forall i, j :: 0 <= i < j < |s| ==> s[i].age <= s[j].age
    ensures m == AgeFall ==> forall i, j :: 0 <= i < j < |s| ==> s[i].age >= s[j].age
    ensures m == Alphabet ==> forall i, j :: 0 <= i < j < |s| ==> !Less(s[j].name, s[i].name)
    ensures m == NonAlphabet ==> forall i, j :: 0 <= i < j < |s| ==> !Less(s[i].name, s[j].name)
  {
    SortedPairwise(m, s);
    forall i, j | 0 <= i < j < |s|
      ensures !(Less(s[i].name, s[j].name) && Less(s[j].name, s[i].name))
    {
      LessTrichotomy(s[i].name, s[j].name);
    }
  }
}
